=== FILE: README.md ===
# Helpdesk client: a Dafny model of its rendering and fallback logic

The Helpdesk client is a single browser script. It logs a user in, lists the
support cases that the Helpdesk API returns, creates new cases and shows a
report. This project models the parts of that script that compute values:

- `escapeHtml`: `String(text)` followed by three chained `replaceAll` calls.
- The case list of `loadCases`. A parsed reply leads to one of five outcomes: no
  usable reply, a body that is not an array, an empty array, an array on which
  `map` throws (a null or undefined element, or a field whose `String()` throws),
  or the list of `<li>` entries joined into one string.
  Each outcome sets the list markup and a status message.
- The texts shown when the server rejects a login (`data.message || data.error ||
  "Error en login"`) or a new case (`data.message || "Error creando caso"`), and
  the texts shown when the handler's `catch` runs.
- The create-case request body: trimmed title and description, the user id
  `Number(input) || 1`, and the same id sent as `assignedTo` and as `userId`.

JavaScript values are the datatype `JsValue.Value`. It covers undefined, null,
booleans, integers, strings, arrays and objects. `Truthy` is ECMAScript
ToBoolean, `Or` is the `||` operator, and `ToJsString` is `String(v)`, which is
also what a `${v}` hole of a template literal inserts. `String(v)` throws a
TypeError for a parsed object with its own `toString` key (that property is not
callable, and the inherited `valueOf` gives back the object), and for an array
holding such a value. `StringThrows` says when, and every caller checks it
before converting: a throw takes the `catch` branch.

Reading a property of null or undefined throws a TypeError. `Get` returns None
in that case, and the model sends None to the branch that the surrounding
`catch` takes.

The source file has CRLF line ends. A template literal turns each CRLF into a
single line feed, so an entry's markup holds `"\n"` followed by the template's
own indentation.

Only title and description are escaped. Id, status and assignee go
into the markup raw. `CaseList.StatusIsNotEscaped` shows that a status of
`"<li>"` produces a second list entry. The "one entry per case" results
therefore assume that those three raw fields hold no `<`
(`CaseList.RawFieldsMarkupFree`).

Modules:

- `JsValue`: values, truthiness, `||`, property access, and `String()` with decimal integer printing.
- `Escape`: `replaceAll`, `escapeHtml`, a per-character reference escaping, the decoder `Unescape`, and the ampersand-order argument.
- `CaseList`: case records, the entry template, `map(...).join("")`, counting `<li>`, and `loadCases`.
- `Forms`: `setMsg`'s text, the failure texts, `trim`, `Number(x) || 1`, and the create-case request body.

## Model

| member | source | states |
|---|---|---|
| JsValue.Truthy | Helpdesk/app.js:64 | A value is falsy exactly when it is undefined, null, false, 0 or the empty string. |
| JsValue.Or | Helpdesk/app.js:64 | The `or` operator gives `a` when `a` is truthy and `b` when it is not. Its result is truthy exactly when at least one operand is. |
| JsValue.OrChain | Helpdesk/app.js:64 | A chain of two `or` operators gives the first truthy operand, and `c` when neither `a` nor `b` is truthy. |
| JsValue.Get | Helpdesk/app.js:64 | A property read throws exactly when the receiver is null or undefined. For the keys this client reads, a present key gives its value, and a missing key or a primitive or array receiver gives undefined. |
| JsValue.NatToDecimal | Helpdesk/app.js:95 | An id prints as a nonempty string of digits with no leading zero, except for "0" itself. |
| JsValue.DecimalRoundTrip | Helpdesk/app.js:95 | Reading the printed digits back gives the number. |
| JsValue.IntToDecimal | Helpdesk/app.js:95 | An integer prints as a nonempty text that starts with `-` exactly when it is negative, and is digits otherwise. |
| JsValue.IntToDecimalInjective | Helpdesk/app.js:95 | Two integers that print the same are equal, so the printed `#id` identifies the case. |
| JsValue.StringThrows | Helpdesk/app.js:152 | `String(v)` throws exactly for an object with its own `toString` key, and for an array with an element that throws. No other value throws. |
| JsValue.ToJsString | Helpdesk/app.js:152 | For a value that does not throw, `String(v)` keeps strings unchanged. Numbers print in decimal, booleans as "true" or "false", undefined and null as their names, and objects as "[object Object]". An array prints as the comma join of its elements' texts, with null and undefined elements empty. |
| JsValue.JoinComma | Helpdesk/app.js:152 | `join(",")` of one part is that part. Its length is the parts' lengths plus one comma between each two neighbours. It starts with the first part, followed, when there are more parts, by a comma and the join of the rest. |
| JsValue.ArrayText | Helpdesk/app.js:97 | `String([x])` is the text of `x`, or empty for null and undefined. `String([x, y])` puts one comma between the two texts. |
| JsValue.NumberTextHasNoMarkup | Helpdesk/app.js:95 | A numeric id never brings `<`, `>` or `&` into the markup. |
| Escape.ReplaceAll | Helpdesk/app.js:152 | `replaceAll` leaves a string without the pattern unchanged. It removes every occurrence when the replacement does not contain the pattern. |
| Escape.ReplaceAllAppend | Helpdesk/app.js:152 | `replaceAll` of a one-character pattern distributes over concatenation. |
| Escape.EscapeString | Helpdesk/app.js:151-153 | Escaped text contains no `<` or `>`. Text without `&`, `<` and `>` comes out unchanged. |
| Escape.EscapeHtml | Helpdesk/app.js:151-153 | The same, for any value converted with `String()`. |
| Escape.EscapeStringIsPerCharacter | Helpdesk/app.js:152 | The three chained replacements equal escaping each character on its own: later replacements never rewrite what earlier ones inserted. |
| Escape.EscapeRoundTrip | Helpdesk/app.js:151-153 | Decoding `&amp;`, `&lt;` and `&gt;` in the escaped text gives back the original text exactly. |
| Escape.AmpersandsOpenEntities | Helpdesk/app.js:152 | Every `&` in the per-character escaping starts one of the three entities. |
| Escape.EscapedAmpersandsOpenEntities | Helpdesk/app.js:151-153 | Every `&` in the output of escapeHtml starts one of the three entities. |
| Escape.AmpersandLastBreaksRoundTrip | Helpdesk/app.js:152 | Replacing `&` last instead of first turns "<" into "&amp;lt;", which does not decode to "<". |
| CaseList.CaseOf | Helpdesk/app.js:95-97 | Reading a list element's fields throws exactly when the element is null or undefined. An object yields its six fields, with undefined for each missing one. Any other element (a number, string, boolean or array) yields undefined for all six. |
| CaseList.DescriptionText | Helpdesk/app.js:96 | A falsy description shows as empty text. Otherwise the description is shown escaped. |
| CaseList.StatusText | Helpdesk/app.js:97 | A falsy status shows the dash U+2014. Otherwise the status is shown raw. |
| CaseList.AssigneeFallback | Helpdesk/app.js:97 | The assignee is `assignedTo` when it is truthy, otherwise `userId` when it is truthy, otherwise the dash. |
| CaseList.EscapedFields | Helpdesk/app.js:95-96 | No `<` or `>` of the title or description reaches the markup. Decoding the inserted text gives back the field's text. |
| CaseList.ItemInner | Helpdesk/app.js:95-97 | The three lines between `<li>` and `</li>`, with their line breaks and indentation. |
| CaseList.ItemTemplate | Helpdesk/app.js:94-98 | The template with its five holes is one element: it starts with `<li>` and ends with `</li>`. |
| CaseList.RenderItem | Helpdesk/app.js:93-98 | Each case's entry starts with `<li>` and ends with `</li>`. |
| CaseList.ItemIsOneEntry | Helpdesk/app.js:94-98 | An entry whose raw fields hold no `<` contains exactly one `<li>` and ends in no partial tag. |
| CaseList.StatusIsNotEscaped | Helpdesk/app.js:97 | A status of "<li>" gives an entry with two `<li>` tags. |
| CaseList.Items | Helpdesk/app.js:93-99 | `map` gives one entry per case, and the i-th entry is the i-th case's. |
| CaseList.Join | Helpdesk/app.js:99 | `join("")` of one part is that part, and its length is the sum of the parts' lengths. |
| CaseList.RenderList | Helpdesk/app.js:93-99 | `list.map(...).join("")`: the entries of the cases, one after another. |
| CaseList.JoinSplit | Helpdesk/app.js:99 | `join("")` puts each part between the join of the parts before it and the join of the parts after it. |
| CaseList.RenderListSplit | Helpdesk/app.js:93-99 | The list markup is the entries of the earlier cases, then this case's entry, then the entries of the later cases. |
| CaseList.JoinCount | Helpdesk/app.js:99 | Joining parts with one `<li>` each gives as many `<li>` as there are parts. |
| CaseList.ListHasOneEntryPerCase | Helpdesk/app.js:93-99 | n cases whose raw fields hold no `<` render exactly n `<li>` entries. |
| CaseList.EntriesInOrder | Helpdesk/app.js:93-99 | For such cases, exactly i `<li>` tags come before the i-th case's entry, so the i-th entry is the i-th case's. |
| CaseList.CasesOf | Helpdesk/app.js:93-97 | The records come out of an array exactly when no element is null or undefined. They keep length and order. |
| CaseList.LoadCases | Helpdesk/app.js:80-106 | Each outcome's list markup, message and error flag. No usable reply: "Error cargando casos". A non-array body: "Respuesta inesperada". An empty array: the "No hay casos" placeholder. A null element, or an entry field whose `String()` throws: "Error cargando casos", with the list left empty. Otherwise: the rendered list and an empty success message. |
| CaseList.LoadCasesRenders | Helpdesk/app.js:90-101 | A nonempty array of records whose fields all convert renders as their list, with an empty message that is not an error. |
| CaseList.ThrowingTitleFailsTheList | Helpdesk/app.js:93-104 | A case whose title is an object with its own `toString` key makes the list fail: empty markup and "Error cargando casos". |
| Forms.ShownText | Helpdesk/app.js:9-13 | A status element shows the text of a truthy value, and the empty string for a falsy one (for a value whose conversion does not throw). |
| Forms.LoginFailureFallback | Helpdesk/app.js:62-76 | A rejected login shows the body's `message` if truthy, else its `error` if truthy, else "Error en login". A null body, or a chosen value whose `String()` throws, shows "No se pudo contactar la API". |
| Forms.LoginShowsServerMessage | Helpdesk/app.js:63-65 | A rejected login whose body's message is "bad credentials" shows exactly that. |
| Forms.LoginThrowingMessage | Helpdesk/app.js:64-74 | A rejected login whose message is an object with its own `toString` key shows "No se pudo contactar la API". |
| Forms.CreateFailureText | Helpdesk/app.js:122-133 | A rejected case shows the body's `message` if truthy and convertible, else "Error creando caso". A null body, or a message whose `String()` throws, shows the catch's same text. |
| Forms.Trim | Helpdesk/app.js:113-114 | `trim` gives an infix of the input whose cut-off ends are all white space, and the infix neither starts nor ends with white space. |
| Forms.TrimIdempotent | Helpdesk/app.js:113-114 | Trimming twice changes nothing more. |
| Forms.DefaultUserId | Helpdesk/app.js:115 | The user id is never 0. It is the parsed number when that is nonzero, and 1 when the input parses to 0 or NaN. |
| Forms.NewCaseRequest | Helpdesk/app.js:113-120 | The request carries the trimmed title and description. `assignedTo` equals `userId`, and both are the nonzero defaulted id. |

## Left out

- Network, `fetch` and `res.json()`: a reply is an input. A failed request or an unparsable body is `CasesReply.Unreachable`, or a nullish body for the forms.
- The `ok` flag of a response: the login and create-case failure texts are the texts for a reply that is not ok, and the success path is not modelled.
- `loadCases` does not look at the status; the model does not either.
- The DOM: `show`, `hide`, element lookup, the message colours, clearing the form inputs, and the view switch after a successful login.
- Event listeners, and the order in which overlapping `loadCases` calls finish (concurrency; the last one to finish wins).
- `localStorage`, `saveSession`, `getSession`, `clearSession` and `renderUserArea`: storage and DOM.
- The login request body and `JSON.stringify`: serialisation is not modelled.
- The report view: it pretty-prints JSON verbatim and computes nothing.
- Floating point: numbers are integers printed in plain decimal. JavaScript prints fractions, prints exponent notation from 1e21 on, and also has NaN and -0.
- `Number(input)` parsing of the user-id field: its outcome is an input, `Option<int>`, where None stands for NaN.
- Properties that objects, primitives and arrays inherit (such as `constructor` or `toString` on an object, `length` on a string): `Get` gives undefined for every key an object lacks, which holds only for the keys this client reads.
- Strings are sequences of Unicode scalar values, not UTF-16 code units.
- `replaceAll` replacement patterns with `$`: none of the replacement strings used contains `$`.
- Forms.LoginFailureText: it carries no contract of its own; Forms.LoginFailureFallback states its meaning.
- CaseList.AssigneeText: it carries no contract of its own; CaseList.AssigneeFallback states its meaning.
- CaseList.RenderList: it carries no contract of its own; CaseList.EntriesInOrder, CaseList.RenderListSplit and CaseList.ListHasOneEntryPerCase state its meaning.
- CaseList.ItemInner: it carries no contract of its own; CaseList.InnerCount and CaseList.ItemIsOneEntry state its meaning.
- `console.error(err)` in the `catch` branches (Helpdesk/app.js:75, 103, 131 and 145): console logging is output only and changes nothing the model covers.
- JsValue.ToJsString: for a value that StringThrows it still returns a text ("[object Object]" for such an object). Every caller checks StringThrows first and takes its `catch` branch, so that text is never shown.

=== FILE: CaseList.dfy ===
/** The case list of Helpdesk/app.js (`loadCases`): the parsed reply of the
    list exchange becomes the markup of the list element and a status message. */
module CaseList {
  import opened JsValue
  import opened Escape

  /** A case record as the template reads it; a missing property is `Undefined`. */
  datatype Case = Case(id: Value, title: Value, description: Value, status: Value,
                       assignedTo: Value, userId: Value)

  /** The template reads six properties of each list element; on a null or
      undefined element the first read throws (None). */
  function CaseOf(v: Value): (r: Option<Case>)
    ensures r.None? <==> Nullish(v)
    ensures v.Obj? ==> r == Some(Case(Get(v, "id").value, Get(v, "title").value, Get(v, "description").value,
                                      Get(v, "status").value, Get(v, "assignedTo").value, Get(v, "userId").value))
    ensures !v.Obj? && !Nullish(v) ==>
              r == Some(Case(Undefined, Undefined, Undefined, Undefined, Undefined, Undefined))
  {
    if Nullish(v) then None
    else Some(Case(Get(v, "id").value, Get(v, "title").value, Get(v, "description").value,
                   Get(v, "status").value, Get(v, "assignedTo").value, Get(v, "userId").value))
  }

  // ---------------------------------------------------------------------------
  // The fields of one entry.

  /** The placeholder dash, U+2014. */
  const Dash := "\U{2014}"

  /** `escapeHtml(c.description || "")`. */
  function DescriptionText(c: Case): (r: string)
    ensures !Truthy(c.description) ==> r == ""
    ensures Truthy(c.description) ==> r == EscapeHtml(c.description)
  {
    EscapeHtml(Or(c.description, Str("")))
  }

  /** `${c.status || "—"}`, inserted without escaping. */
  function StatusText(c: Case): (r: string)
    ensures !Truthy(c.status) ==> r == Dash
    ensures Truthy(c.status) ==> r == ToJsString(c.status)
  {
    ToJsString(Or(c.status, Str(Dash)))
  }

  /** `${c.assignedTo || c.userId || "—"}`, inserted without escaping. */
  function AssigneeText(c: Case): (r: string)
  {
    ToJsString(Or(Or(c.assignedTo, c.userId), Str(Dash)))
  }

  /** The assignee falls back from `assignedTo` to `userId` to the dash. */
  lemma AssigneeFallback(c: Case)
    ensures Truthy(c.assignedTo) ==> AssigneeText(c) == ToJsString(c.assignedTo)
    ensures !Truthy(c.assignedTo) && Truthy(c.userId) ==> AssigneeText(c) == ToJsString(c.userId)
    ensures !Truthy(c.assignedTo) && !Truthy(c.userId) ==> AssigneeText(c) == Dash
  {
    OrChain(c.assignedTo, c.userId, Str(Dash));
  }

  /** Title and description are escaped: no angle bracket of theirs reaches the
      markup, and decoding the entities gives back the field's text. */
  lemma EscapedFields(c: Case)
    ensures '<' !in EscapeHtml(c.title) && '>' !in EscapeHtml(c.title)
    ensures '<' !in DescriptionText(c) && '>' !in DescriptionText(c)
    ensures Unescape(EscapeHtml(c.title)) == ToJsString(c.title)
    ensures Unescape(DescriptionText(c)) == if Truthy(c.description) then ToJsString(c.description) else ""
  {
    EscapeRoundTrip(ToJsString(c.title));
    EscapeRoundTrip(ToJsString(Or(c.description, Str(""))));
  }

  // ---------------------------------------------------------------------------
  // The template of one entry. Helpdesk/app.js has CRLF line ends; a template
  // literal turns each into a single line feed.

  function OpenTag(t: string): string { "<" + t + ">" }
  function CloseTag(t: string): string { "</" + t + ">" }
  function Element(t: string, inner: string): string { OpenTag(t) + inner + CloseTag(t) }

  /** A line break followed by the indentation of the inner lines (11 spaces). */
  const LineBreak := "\n           "
  /** The line break before the closing `</li>` and its indentation (9 spaces). */
  const LastLineBreak := "\n         "

  /** The first line of an entry: `<strong>#id title</strong>`. */
  function StrongPart(id: string, title: string): string {
    Element("strong", "#" + id + " " + title)
  }

  /** The third line of an entry: `<em>Estado: status • Asignado: assignee</em>`. */
  function EmPart(status: string, assignee: string): string {
    Element("em", "Estado: " + status + " \U{2022} Asignado: " + assignee)
  }

  /** What the template puts between `<li>` and `</li>`. */
  function ItemInner(id: string, title: string, description: string, status: string,
                     assignee: string): string
  {
    LineBreak + StrongPart(id, title)
    + OpenTag("br") + LineBreak + Element("small", description)
    + OpenTag("br") + LineBreak + EmPart(status, assignee)
    + LastLineBreak
  }

  /** The template literal of one entry, with its five holes: one `<li>` element. */
  function ItemTemplate(id: string, title: string, description: string, status: string,
                        assignee: string): (r: string)
    ensures |r| >= 9 && r[..4] == "<li>" && r[|r| - 5..] == "</li>"
  {
    ElementDelimited("li", ItemInner(id, title, description, status, assignee));
    Element("li", ItemInner(id, title, description, status, assignee))
  }

  /** The `<li>` entry the template produces for one case: every entry starts with
      `<li>` and ends with `</li>`. */
  function RenderItem(c: Case): (r: string)
    ensures |r| >= 9 && r[..4] == "<li>" && r[|r| - 5..] == "</li>"
  {
    ItemTemplate(ToJsString(c.id), EscapeHtml(c.title), DescriptionText(c), StatusText(c), AssigneeText(c))
  }

  lemma ElementDelimited(t: string, inner: string)
    ensures var r := Element(t, inner);
      r[..|t| + 2] == OpenTag(t) && r[|r| - |t| - 3..] == CloseTag(t)
  {
    var r := Element(t, inner);
    assert r == OpenTag(t) + inner + CloseTag(t);
  }

  /** `parts.join("")`: the parts in order, nothing between them. */
  function Join(parts: seq<string>): (r: string)
    ensures |r| == TotalLength(parts)
    ensures |parts| == 1 ==> r == parts[0]
  {
    if parts == [] then "" else parts[0] + Join(parts[1..])
  }

  /** `list.map(item)`: one entry per case, in order. */
  function Items(cs: seq<Case>): (r: seq<string>)
    ensures |r| == |cs| && forall i :: 0 <= i < |cs| ==> r[i] == RenderItem(cs[i])
  {
    seq(|cs|, i requires 0 <= i < |cs| => RenderItem(cs[i]))
  }

  /** `list.map(item).join("")`. */
  function RenderList(cs: seq<Case>): string
  {
    Join(Items(cs))
  }

  /** The parts appear in order: the i-th part sits between the join of the parts
      before it and the join of those after it. */
  lemma {:induction false} JoinSplit(parts: seq<string>, i: nat)
    requires i < |parts|
    ensures Join(parts) == Join(parts[..i]) + parts[i] + Join(parts[i + 1..])
    decreases i
  {
    if i == 0 {
      assert parts[..0] == [];
      assert Join(parts[..0]) == "";
    } else {
      var tail := parts[1..];
      JoinSplit(tail, i - 1);
      assert tail[..i - 1] == parts[1..i];
      assert tail[i - 1] == parts[i];
      assert tail[i..] == parts[i + 1..];
      var front := parts[..i];
      assert front[0] == parts[0];
      assert front[1..] == parts[1..i];
      assert Join(front) == parts[0] + Join(parts[1..i]);
    }
  }

  /** The entries appear in input order: the i-th case's entry sits between the
      entries of the cases before it and those after it. */
  lemma RenderListSplit(cs: seq<Case>, i: nat)
    requires i < |cs|
    ensures RenderList(cs) == RenderList(cs[..i]) + RenderItem(cs[i]) + RenderList(cs[i + 1..])
  {
    JoinSplit(Items(cs), i);
    ItemsSlices(cs, i);
  }

  // ---------------------------------------------------------------------------
  // Counting the entries: occurrences of "<li>".

  /** The number of occurrences of "<li>" in `s`. */
  function CountLi(s: string): nat
  {
    CountLiFrom(s, 0)
  }

  predicate LiAt(s: string, i: nat)
    requires i + 4 <= |s|
  {
    s[i] == '<' && s[i + 1] == 'l' && s[i + 2] == 'i' && s[i + 3] == '>'
  }

  /** The occurrences of "<li>" that start at index `i` or later. */
  function CountLiFrom(s: string, i: nat): nat
    decreases |s| - i
  {
    if i + 4 > |s| then 0 else (if LiAt(s, i) then 1 else 0) + CountLiFrom(s, i + 1)
  }

  /** None of the last three characters is '<', so no "<li>" can start there. */
  predicate NoOpenTail(s: string) {
    (|s| >= 1 ==> s[|s| - 1] != '<') &&
    (|s| >= 2 ==> s[|s| - 2] != '<') &&
    (|s| >= 3 ==> s[|s| - 3] != '<')
  }

  /** `s` is a markup fragment holding exactly `k` occurrences of "<li>" that
      cannot combine with what follows it into another one. */
  predicate Fragment(s: string, k: nat) {
    NoOpenTail(s) && CountLi(s) == k
  }

  lemma {:induction false} CountLiShift(a: string, b: string, j: nat)
    ensures CountLiFrom(a + b, |a| + j) == CountLiFrom(b, j)
    decreases |b| - j
  {
    if j + 4 <= |b| {
      var s := a + b;
      assert s[|a| + j] == b[j] && s[|a| + j + 1] == b[j + 1];
      assert s[|a| + j + 2] == b[j + 2] && s[|a| + j + 3] == b[j + 3];
      CountLiShift(a, b, j + 1);
    }
  }

  lemma {:induction false} CountLiFromAppend(a: string, b: string, i: nat)
    requires NoOpenTail(a) && i <= |a|
    ensures CountLiFrom(a + b, i) == CountLiFrom(a, i) + CountLiFrom(b, 0)
    decreases |a| - i
  {
    var s := a + b;
    if i == |a| {
      CountLiShift(a, b, 0);
    } else {
      CountLiFromAppend(a, b, i + 1);
      if i + 4 <= |a| {
        assert s[i] == a[i] && s[i + 1] == a[i + 1] && s[i + 2] == a[i + 2] && s[i + 3] == a[i + 3];
      } else {
        assert s[i] == a[i] && a[i] != '<';
      }
    }
  }

  lemma CountLiAppend(a: string, b: string)
    requires NoOpenTail(a)
    ensures CountLi(a + b) == CountLi(a) + CountLi(b)
  {
    CountLiFromAppend(a, b, 0);
  }

  lemma FragmentAppend(a: string, ka: nat, b: string, kb: nat)
    requires Fragment(a, ka) && Fragment(b, kb)
    ensures Fragment(a + b, ka + kb)
  {
    CountLiAppend(a, b);
  }

  /** No "<li>" starts at or after `i` when no '<' does. */
  lemma {:induction false} NoLessThanFrom(s: string, i: nat)
    requires forall j :: i <= j < |s| ==> s[j] != '<'
    ensures CountLiFrom(s, i) == 0
    decreases |s| - i
  {
    if i + 4 <= |s| {
      NoLessThanFrom(s, i + 1);
    }
  }

  /** Text without '<' holds no tag. */
  lemma PlainText(s: string)
    requires '<' !in s
    ensures Fragment(s, 0)
  {
    NoLessThanFrom(s, 0);
  }

  /** An opening tag counts one entry exactly when it is `<li>`. */
  lemma OpenTagFragment(t: string)
    requires |t| >= 2 && '<' !in t && '>' !in t
    ensures Fragment(OpenTag(t), if t == "li" then 1 else 0)
  {
    var s := OpenTag(t);
    assert forall j :: 1 <= j < |s| ==> s[j] != '<' by {
      forall j | 1 <= j < |s| ensures s[j] != '<' {
        if j <= |t| { assert s[j] == t[j - 1]; }
      }
    }
    NoLessThanFrom(s, 1);
    assert s[1] == t[0] && s[2] == t[1];
    assert s[3] == '>' <==> |t| == 2 by {
      if |t| > 2 { assert s[3] == t[2]; }
    }
    assert LiAt(s, 0) <==> t == "li" by {
      if LiAt(s, 0) {
        assert |t| == 2 && t[0] == 'l' && t[1] == 'i';
        assert t == "li";
      }
    }
  }

  lemma CloseTagFragment(t: string)
    requires |t| >= 1 && '<' !in t
    ensures Fragment(CloseTag(t), 0)
  {
    var s := CloseTag(t);
    assert forall j :: 1 <= j < |s| ==> s[j] != '<' by {
      forall j | 1 <= j < |s| ensures s[j] != '<' {
        if 2 <= j < |s| - 1 { assert s[j] == t[j - 2]; }
      }
    }
    NoLessThanFrom(s, 1);
    assert s[1] == '/';
  }

  lemma ElementFragment(t: string, inner: string, k: nat)
    requires |t| >= 2 && '<' !in t && '>' !in t && Fragment(inner, k)
    ensures Fragment(Element(t, inner), k + if t == "li" then 1 else 0)
  {
    OpenTagFragment(t);
    CloseTagFragment(t);
    FragmentAppend(OpenTag(t), if t == "li" then 1 else 0, inner, k);
    FragmentAppend(OpenTag(t) + inner, k + if t == "li" then 1 else 0, CloseTag(t), 0);
  }

  /** The template adds exactly one "<li>" to those its holes hold. */
  lemma TemplateCount(id: string, title: string, description: string, status: string, assignee: string,
                      kStatus: nat)
    requires '<' !in id && '<' !in title && '<' !in description && '<' !in assignee
    requires Fragment(status, kStatus)
    ensures Fragment(ItemTemplate(id, title, description, status, assignee), 1 + kStatus)
  {
    StrongCount(id, title);
    PlainText(description);
    ElementFragment("small", description, 0);
    EmCount(status, assignee, kStatus);
    InnerCount(id, title, description, status, assignee, kStatus);
    ElementFragment("li", ItemInner(id, title, description, status, assignee), kStatus);
  }

  lemma StrongCount(id: string, title: string)
    requires '<' !in id && '<' !in title
    ensures Fragment(StrongPart(id, title), 0)
  {
    var head := "#" + id + " ";
    PlainText(head);
    PlainText(title);
    FragmentAppend(head, 0, title, 0);
    ElementFragment("strong", head + title, 0);
  }

  lemma EmCount(status: string, assignee: string, k: nat)
    requires '<' !in assignee && Fragment(status, k)
    ensures Fragment(EmPart(status, assignee), k)
  {
    var lbl := "Estado: ";
    var sep := " \U{2022} Asignado: ";
    PlainText(lbl);
    PlainText(sep);
    PlainText(assignee);
    FragmentAppend(lbl, 0, status, k);
    FragmentAppend(lbl + status, k, sep, 0);
    FragmentAppend(lbl + status + sep, k, assignee, 0);
    ElementFragment("em", lbl + status + sep + assignee, k);
  }

  lemma InnerCount(id: string, title: string, description: string, status: string, assignee: string,
                   k: nat)
    requires Fragment(StrongPart(id, title), 0) && Fragment(Element("small", description), 0)
    requires Fragment(EmPart(status, assignee), k)
    ensures Fragment(ItemInner(id, title, description, status, assignee), k)
  {
    var strong, small, em := StrongPart(id, title), Element("small", description), EmPart(status, assignee);
    var br := OpenTag("br");
    PlainText(LineBreak);
    PlainText(LastLineBreak);
    OpenTagFragment("br");
    FragmentAppend(LineBreak, 0, strong, 0);
    FragmentAppend(LineBreak + strong, 0, br, 0);
    FragmentAppend(LineBreak + strong + br, 0, LineBreak, 0);
    FragmentAppend(LineBreak + strong + br + LineBreak, 0, small, 0);
    FragmentAppend(LineBreak + strong + br + LineBreak + small, 0, br, 0);
    FragmentAppend(LineBreak + strong + br + LineBreak + small + br, 0, LineBreak, 0);
    FragmentAppend(LineBreak + strong + br + LineBreak + small + br + LineBreak, 0, em, k);
    FragmentAppend(LineBreak + strong + br + LineBreak + small + br + LineBreak + em, k, LastLineBreak, 0);
  }

  /** One of the five holes of the entry converts a value whose `String()` throws. */
  predicate EntryThrows(c: Case) {
    StringThrows(c.id) || StringThrows(c.title) || StringThrows(Or(c.description, Str("")))
    || StringThrows(Or(c.status, Str(Dash))) || StringThrows(Or(Or(c.assignedTo, c.userId), Str(Dash)))
  }

  /** Rendering some entry of the list throws inside `map`. */
  predicate ListThrows(cs: seq<Case>) {
    exists i :: 0 <= i < |cs| && EntryThrows(cs[i])
  }

  /** The fields that the template inserts without escaping hold no '<'. */
  predicate RawFieldsMarkupFree(c: Case) {
    '<' !in ToJsString(c.id) && '<' !in StatusText(c) && '<' !in AssigneeText(c)
  }

  /** When the unescaped fields carry no markup, an entry holds exactly one "<li>". */
  lemma ItemIsOneEntry(c: Case)
    requires RawFieldsMarkupFree(c)
    ensures Fragment(RenderItem(c), 1)
  {
    EscapedFields(c);
    PlainText(StatusText(c));
    TemplateCount(ToJsString(c.id), EscapeHtml(c.title), DescriptionText(c), StatusText(c), AssigneeText(c), 0);
  }

  /** Status is not escaped: a status of "<li>" adds a second entry tag. */
  lemma StatusIsNotEscaped(c: Case)
    requires c.status == Str("<li>") && '<' !in ToJsString(c.id) && '<' !in AssigneeText(c)
    ensures CountLi(RenderItem(c)) == 2
  {
    var status := StatusText(c);
    assert status == OpenTag("li");
    OpenTagFragment("li");
    var id, title, description, assignee := ToJsString(c.id), EscapeHtml(c.title), DescriptionText(c), AssigneeText(c);
    TemplateCount(id, title, description, status, assignee, 1);
  }

  /** Joining parts that hold one "<li>" each gives as many as there are parts. */
  lemma {:induction false} JoinCount(parts: seq<string>)
    requires forall i :: 0 <= i < |parts| ==> Fragment(parts[i], 1)
    ensures Fragment(Join(parts), |parts|)
    decreases |parts|
  {
    if parts == [] {
      PlainText("");
    } else {
      JoinCount(parts[1..]);
      FragmentAppend(parts[0], 1, Join(parts[1..]), |parts| - 1);
    }
  }

  /** n cases whose unescaped fields carry no markup render exactly n entries. */
  lemma ListHasOneEntryPerCase(cs: seq<Case>)
    requires forall i :: 0 <= i < |cs| ==> RawFieldsMarkupFree(cs[i])
    ensures Fragment(RenderList(cs), |cs|)
  {
    ItemsAreEntries(cs);
    JoinCount(Items(cs));
  }

  // ---------------------------------------------------------------------------
  // loadCases after the request: the reply, the list markup and the message.

  /** What `fetch` and `res.json()` yielded: nothing usable (either threw), or a
      parsed body. The HTTP status is not looked at. */
  datatype CasesReply = Unreachable | Received(body: Value)

  /** The list element's markup and the cases status message afterwards. */
  datatype CasesView = CasesView(listHtml: string, message: string, isError: bool)

  const EmptyListHtml := "<li>No hay casos</li>"
  const UnexpectedReply := "Respuesta inesperada"
  const LoadFailed := "Error cargando casos"

  /** The case records of the list elements, or None when one of them is null
      or undefined (reading its properties throws inside `map`). */
  function CasesOf(xs: seq<Value>): (r: Option<seq<Case>>)
    ensures r.None? <==> exists i :: 0 <= i < |xs| && Nullish(xs[i])
    ensures r.Some? ==> |r.value| == |xs| && forall i :: 0 <= i < |xs| ==> CaseOf(xs[i]) == Some(r.value[i])
    decreases |xs|
  {
    if xs == [] then Some([])
    else match (CaseOf(xs[0]), CasesOf(xs[1..]))
      case (Some(c), Some(cs)) =>
        assert forall i :: 1 <= i < |xs| ==> xs[i] == xs[1..][i - 1];
        Some([c] + cs)
      case (None, _) => None
      case (_, None) =>
        assert forall i :: 0 <= i < |xs[1..]| ==> xs[1..][i] == xs[i + 1];
        None
  }

  function LoadCases(reply: CasesReply): (r: CasesView)
    ensures reply.Unreachable? ==> r == CasesView("", LoadFailed, true)
    ensures reply.Received? && !reply.body.Arr? ==> r == CasesView("", UnexpectedReply, true)
    ensures reply == Received(Arr([])) ==> r == CasesView(EmptyListHtml, "", false)
    ensures reply.Received? && reply.body.Arr? && CasesOf(reply.body.elems).None? ==>
              r == CasesView("", LoadFailed, true)
    ensures reply.Received? && reply.body.Arr? && CasesOf(reply.body.elems).Some? &&
            ListThrows(CasesOf(reply.body.elems).value) ==>
              r == CasesView("", LoadFailed, true)
    ensures reply.Received? && reply.body.Arr? && reply.body.elems != [] && CasesOf(reply.body.elems).Some? &&
            !ListThrows(CasesOf(reply.body.elems).value) ==>
              r == CasesView(RenderList(CasesOf(reply.body.elems).value), "", false)
  {
    match reply
    case Unreachable => CasesView("", LoadFailed, true)
    case Received(body) =>
      if !body.Arr? then CasesView("", UnexpectedReply, true)
      else if body.elems == [] then CasesView(EmptyListHtml, "", false)
      else match CasesOf(body.elems)
        case None => CasesView("", LoadFailed, true)
        case Some(cs) =>
          if ListThrows(cs) then CasesView("", LoadFailed, true) else CasesView(RenderList(cs), "", false)
  }

  /** Parts holding one "<li>" each: the i-th "<li>" of the join opens the i-th part. */
  lemma JoinEntriesInOrder(parts: seq<string>, i: nat)
    requires forall k :: 0 <= k < |parts| ==> Fragment(parts[k], 1)
    requires i < |parts|
    ensures Join(parts) == Join(parts[..i]) + parts[i] + Join(parts[i + 1..])
    ensures CountLi(Join(parts[..i])) == i
  {
    JoinSplit(parts, i);
    var front := parts[..i];
    assert forall k :: 0 <= k < |front| ==> front[k] == parts[k];
    JoinCount(front);
  }

  lemma ItemsSlices(cs: seq<Case>, i: nat)
    requires i < |cs|
    ensures Items(cs)[..i] == Items(cs[..i]) && Items(cs)[i + 1..] == Items(cs[i + 1..])
  {
    var parts := Items(cs);
    var front, back := Items(cs[..i]), Items(cs[i + 1..]);
    assert forall k :: 0 <= k < i ==> parts[..i][k] == front[k];
    assert forall k :: 0 <= k < |back| ==> parts[i + 1..][k] == back[k];
  }

  lemma ItemsAreEntries(cs: seq<Case>)
    requires forall k :: 0 <= k < |cs| ==> RawFieldsMarkupFree(cs[k])
    ensures forall k :: 0 <= k < |Items(cs)| ==> Fragment(Items(cs)[k], 1)
  {
    forall k | 0 <= k < |cs| ensures Fragment(Items(cs)[k], 1) {
      ItemIsOneEntry(cs[k]);
    }
  }

  /** Cases whose unescaped fields carry no markup: the list holds one "<li>" per
      case, and the i-th "<li>" opens the i-th case's entry. */
  lemma EntriesInOrder(cs: seq<Case>, i: nat)
    requires forall k :: 0 <= k < |cs| ==> RawFieldsMarkupFree(cs[k])
    requires i < |cs|
    ensures CountLi(RenderList(cs)) == |cs|
    ensures RenderList(cs) == RenderList(cs[..i]) + RenderItem(cs[i]) + RenderList(cs[i + 1..])
    ensures CountLi(RenderList(cs[..i])) == i
  {
    ItemsAreEntries(cs);
    var parts := Items(cs);
    JoinCount(parts);
    JoinEntriesInOrder(parts, i);
    ItemsSlices(cs, i);
  }

  /** A non-empty array of records whose fields all convert is rendered as the
      list of its cases; with EntriesInOrder this gives one entry per element, in
      order. */
  lemma LoadCasesRenders(xs: seq<Value>, cs: seq<Case>)
    requires CasesOf(xs) == Some(cs) && xs != [] && !ListThrows(cs)
    ensures LoadCases(Received(Arr(xs))) == CasesView(RenderList(cs), "", false)
  {
  }

  /** A case whose title is an object with its own `toString` key (such as
      `{"toString": 0}`) makes `escapeHtml` throw inside `map`: the list stays
      empty and the failure message is shown. */
  lemma ThrowingTitleFailsTheList(xs: seq<Value>, cs: seq<Case>, i: nat)
    requires CasesOf(xs) == Some(cs) && i < |cs|
    requires cs[i].title.Obj? && "toString" in cs[i].title.fields
    ensures LoadCases(Received(Arr(xs))) == CasesView("", LoadFailed, true)
  {
    assert EntryThrows(cs[i]);
  }
}

=== FILE: Escape.dfy ===
/** `escapeHtml` of Helpdesk/app.js: `String(text)` followed by three chained
    `replaceAll` calls, ampersand first, then less-than, then greater-than. */
module Escape {
  import opened JsValue

  /** `s.replaceAll(c, rep)` for a one-character pattern: every occurrence of `c`,
      left to right, becomes `rep`. (None of the replacement strings used here
      holds a `$`, so no replacement pattern is expanded.) */
  function ReplaceAll(s: string, c: char, rep: string): (r: string)
    ensures c !in s ==> r == s
    ensures c !in rep ==> c !in r
  {
    if s == [] then []
    else (if s[0] == c then rep else [s[0]]) + ReplaceAll(s[1..], c, rep)
  }

  /** A character that is neither in the text nor in the replacement stays out. */
  lemma {:induction false} ReplaceAllAbsent(s: string, c: char, rep: string, x: char)
    requires x !in s && x !in rep
    ensures x !in ReplaceAll(s, c, rep)
    decreases |s|
  {
    if s != [] {
      ReplaceAllAbsent(s[1..], c, rep, x);
    }
  }

  lemma {:induction false} ReplaceAllAppend(a: string, b: string, c: char, rep: string)
    ensures ReplaceAll(a + b, c, rep) == ReplaceAll(a, c, rep) + ReplaceAll(b, c, rep)
    decreases |a|
  {
    if a == [] {
      assert a + b == b;
    } else {
      var first := if a[0] == c then rep else [a[0]];
      assert (a + b)[0] == a[0];
      assert (a + b)[1..] == a[1..] + b;
      ReplaceAllAppend(a[1..], b, c, rep);
      calc {
        ReplaceAll(a + b, c, rep);
        first + ReplaceAll(a[1..] + b, c, rep);
        first + (ReplaceAll(a[1..], c, rep) + ReplaceAll(b, c, rep));
        (first + ReplaceAll(a[1..], c, rep)) + ReplaceAll(b, c, rep);
      }
    }
  }

  /** The escaping of a string, as the source computes it. */
  function EscapeString(s: string): (r: string)
    ensures '<' !in r && '>' !in r
    ensures ('&' !in s && '<' !in s && '>' !in s) ==> r == s
  {
    var r1 := ReplaceAll(s, '&', "&amp;");
    var r2 := ReplaceAll(r1, '<', "&lt;");
    ReplaceAllAbsent(r2, '>', "&gt;", '<');
    ReplaceAll(r2, '>', "&gt;")
  }

  /** `escapeHtml(text)`: any value is first converted with `String(text)`; for a
      value that StringThrows the call throws, which the callers check first. */
  function EscapeHtml(text: Value): (r: string)
    ensures '<' !in r && '>' !in r
    ensures (var t := ToJsString(text); '&' !in t && '<' !in t && '>' !in t ==> r == t)
  {
    EscapeString(ToJsString(text))
  }

  // ---------------------------------------------------------------------------
  // An independent, character-by-character reference definition.

  function EscapeChar(c: char): string {
    if c == '&' then "&amp;"
    else if c == '<' then "&lt;"
    else if c == '>' then "&gt;"
    else [c]
  }

  function EscapeEach(s: string): string {
    if s == [] then [] else EscapeChar(s[0]) + EscapeEach(s[1..])
  }

  /** The chained `replaceAll` calls escape every character independently: the
      later replacements never touch what the earlier ones inserted. */
  lemma {:induction false} EscapeStringIsPerCharacter(s: string)
    ensures EscapeString(s) == EscapeEach(s)
    decreases |s|
  {
    if s != [] {
      assert s == [s[0]] + s[1..];
      EscapeStringAppend([s[0]], s[1..]);
      EscapeStringOneChar(s[0]);
      EscapeStringIsPerCharacter(s[1..]);
    }
  }

  lemma EscapeStringAppend(a: string, b: string)
    ensures EscapeString(a + b) == EscapeString(a) + EscapeString(b)
  {
    var a1, b1 := ReplaceAll(a, '&', "&amp;"), ReplaceAll(b, '&', "&amp;");
    ReplaceAllAppend(a, b, '&', "&amp;");
    var a2, b2 := ReplaceAll(a1, '<', "&lt;"), ReplaceAll(b1, '<', "&lt;");
    ReplaceAllAppend(a1, b1, '<', "&lt;");
    ReplaceAllAppend(a2, b2, '>', "&gt;");
  }

  lemma EscapeStringOneChar(ch: char)
    ensures EscapeString([ch]) == EscapeChar(ch)
  {
    var r1 := ReplaceAll([ch], '&', "&amp;");
    ReplaceAllOne(ch, '&', "&amp;");
    if ch == '&' {
      ReplaceAllAbsent([ch], '&', "&amp;", '<');
      ReplaceAllAbsent([ch], '&', "&amp;", '>');
      BracketFreePassesThrough(r1);
    } else if ch == '<' {
      var r2 := ReplaceAll(r1, '<', "&lt;");
      ReplaceAllOne(ch, '<', "&lt;");
      ReplaceAllAbsent(r1, '<', "&lt;", '>');
      ReplaceAllLiteral(r2, '>', "&gt;");
    } else {
      ReplaceAllOne(ch, '<', "&lt;");
      ReplaceAllOne(ch, '>', "&gt;");
    }
  }

  /** Text without angle brackets passes the last two replacements unchanged. */
  lemma BracketFreePassesThrough(s: string)
    requires '<' !in s && '>' !in s
    ensures ReplaceAll(ReplaceAll(s, '<', "&lt;"), '>', "&gt;") == s
  {
    ReplaceAllLiteral(s, '<', "&lt;");
    ReplaceAllLiteral(s, '>', "&gt;");
  }

  lemma ReplaceAllOne(ch: char, c: char, rep: string)
    ensures ReplaceAll([ch], c, rep) == if ch == c then rep else [ch]
  {
    assert [ch][1..] == [];
  }

  lemma ReplaceAllLiteral(s: string, c: char, rep: string)
    requires c !in s
    ensures ReplaceAll(s, c, rep) == s
  {
  }

  // ---------------------------------------------------------------------------
  // Decoding the three entities back.

  /** `s` begins with `p`. */
  predicate StartsWith(s: string, p: string) {
    |p| <= |s| && s[..|p|] == p
  }

  /** Decodes `&amp;`, `&lt;` and `&gt;`, left to right; anything else is kept. */
  function Unescape(s: string): (r: string)
    ensures |r| <= |s|
    decreases |s|
  {
    if s == [] then []
    else if s[0] != '&' then [s[0]] + Unescape(s[1..])
    else if StartsWith(s, "&amp;") then "&" + Unescape(s[5..])
    else if StartsWith(s, "&lt;") then "<" + Unescape(s[4..])
    else if StartsWith(s, "&gt;") then ">" + Unescape(s[4..])
    else "&" + Unescape(s[1..])
  }

  lemma {:induction false} UnescapeEscapeEach(s: string)
    ensures Unescape(EscapeEach(s)) == s
    decreases |s|
  {
    if s != [] {
      var rest := EscapeEach(s[1..]);
      assert EscapeEach(s) == EscapeChar(s[0]) + rest;
      UnescapeEscapeEach(s[1..]);
      UnescapeHead(s[0], rest);
      assert s == [s[0]] + s[1..];
    }
  }

  /** Decoding an escaped character followed by anything decodes the character. */
  lemma UnescapeHead(c: char, rest: string)
    ensures Unescape(EscapeChar(c) + rest) == [c] + Unescape(rest)
  {
    if c == '&' {
      UnescapeEntity("&amp;", '&', rest);
    } else if c == '<' {
      UnescapeEntity("&lt;", '<', rest);
    } else if c == '>' {
      UnescapeEntity("&gt;", '>', rest);
    } else {
      var e := [c] + rest;
      assert e[0] == c && e[1..] == rest;
    }
  }

  lemma UnescapeEntity(h: string, c: char, rest: string)
    requires (h, c) in {("&amp;", '&'), ("&lt;", '<'), ("&gt;", '>')}
    ensures Unescape(h + rest) == [c] + Unescape(rest)
  {
    var e := h + rest;
    assert e[..|h|] == h && e[|h|..] == rest;
    assert e[0] == '&';
    assert e[1] == h[1];
  }

  /** Decoding `&lt;`, `&gt;` and `&amp;` in the output of escapeHtml gives back
      exactly the input text. */
  lemma EscapeRoundTrip(s: string)
    ensures Unescape(EscapeString(s)) == s
  {
    EscapeStringIsPerCharacter(s);
    UnescapeEscapeEach(s);
  }

  /** `e` holds one of the three entities at index `i`. */
  predicate EntityAt(e: string, i: nat) {
    (i + 5 <= |e| && e[i..i + 5] == "&amp;") ||
    (i + 4 <= |e| && (e[i..i + 4] == "&lt;" || e[i..i + 4] == "&gt;"))
  }

  lemma EntityAtShift(a: string, b: string, j: nat)
    requires EntityAt(b, j)
    ensures EntityAt(a + b, |a| + j)
  {
    var i := |a| + j;
    if j + 5 <= |b| && b[j..j + 5] == "&amp;" {
      assert (a + b)[i..i + 5] == b[j..j + 5];
    } else {
      assert (a + b)[i..i + 4] == b[j..j + 4];
    }
  }

  lemma EntityAtStart(h: string, b: string)
    requires h == "&amp;" || h == "&lt;" || h == "&gt;"
    ensures EntityAt(h + b, 0)
  {
    assert (h + b)[..|h|] == h;
  }

  /** Every `&` of the output opens one of the three entities. */
  lemma {:induction false} AmpersandsOpenEntities(s: string, i: nat)
    requires i < |EscapeEach(s)| && EscapeEach(s)[i] == '&'
    ensures EntityAt(EscapeEach(s), i)
    decreases |s|
  {
    var head := EscapeChar(s[0]);
    var rest := EscapeEach(s[1..]);
    assert EscapeEach(s) == head + rest;
    if i < |head| {
      assert head[i] == '&';
      EntityAtStart(head, rest);
    } else {
      AmpersandsOpenEntities(s[1..], i - |head|);
      EntityAtShift(head, rest, i - |head|);
    }
  }

  /** The same, about escapeHtml's own output. */
  lemma EscapedAmpersandsOpenEntities(s: string, i: nat)
    requires i < |EscapeString(s)| && EscapeString(s)[i] == '&'
    ensures EntityAt(EscapeString(s), i)
  {
    EscapeStringIsPerCharacter(s);
    AmpersandsOpenEntities(s, i);
  }

  /** Because `&` is replaced first, the ampersands the later replacements insert
      are left alone. Replacing it last instead double-escapes: "<" would come
      out as "&amp;lt;", which decodes to "&lt;" and not to "<". */
  function EscapeAmpersandLast(s: string): string {
    ReplaceAll(ReplaceAll(ReplaceAll(s, '<', "&lt;"), '>', "&gt;"), '&', "&amp;")
  }

  // The steps below take the intermediate strings as parameters fixed by their
  // `requires`, which keeps the solver from unfolding the recursion on literals.

  lemma AmpersandLastBreaksRoundTrip()
    ensures EscapeAmpersandLast("<") == "&amp;lt;"
    ensures Unescape(EscapeAmpersandLast("<")) != "<"
  {
    ReplaceAllOne('<', '<', "&lt;");
    LessThanEntityUntouched("&lt;");
    AmpersandOfLessThanEntity("&lt;");
    DoubleEscapedDecodes("&amp;lt;");
  }

  /** Step 2: the `>` replacement leaves "&lt;" alone. */
  lemma LessThanEntityUntouched(x: string)
    requires x == "&lt;"
    ensures ReplaceAll(x, '>', "&gt;") == x
  {
    ReplaceAllLiteral(x, '>', "&gt;");
  }

  /** Step 3: the `&` replacement rewrites the ampersand of "&lt;". */
  lemma AmpersandOfLessThanEntity(x: string)
    requires x == "&lt;"
    ensures ReplaceAll(x, '&', "&amp;") == "&amp;lt;"
  {
    assert x == "&" + "lt;";
    ReplaceAllAppend("&", "lt;", '&', "&amp;");
    ReplaceAllOne('&', '&', "&amp;");
    ReplaceAllLiteral("lt;", '&', "&amp;");
    assert "&amp;" + "lt;" == "&amp;lt;";
  }

  /** Step 4: "&amp;lt;" decodes to a string that starts with "&". */
  lemma DoubleEscapedDecodes(y: string)
    requires y == "&amp;lt;"
    ensures Unescape(y) != "<"
  {
    assert y == "&amp;" + "lt;";
    UnescapeEntity("&amp;", '&', "lt;");
  }
}

=== FILE: Forms.dfy ===
/** The value choices of the login and create-case handlers of Helpdesk/app.js:
    the status text shown when the server rejects a request, the trimmed form
    inputs and the user id sent with a new case. */
module Forms {
  import opened JsValue

  /** `setMsg`: `el.textContent = text || ""`, a string assignment (for a value
      whose conversion throws, the assignment throws; callers check StringThrows). */
  function ShownText(text: Value): (r: string)
    ensures Truthy(text) ==> r == ToJsString(text)
    ensures !Truthy(text) ==> r == ""
  {
    ToJsString(Or(text, Str("")))
  }

  const LoginFallback := "Error en login"
  const ApiUnreachable := "No se pudo contactar la API"
  const CreateFallback := "Error creando caso"

  /** The login status text after a reply whose status is not ok, with parsed
      body `data`: `data.message || data.error || "Error en login"`. Reading a
      property of a null body throws, and so does showing a value whose
      conversion throws; the handler's catch then shows that the API could not
      be contacted. */
  function LoginFailureText(data: Value): (r: string)
  {
    match (Get(data, "message"), Get(data, "error"))
    case (Some(message), Some(error)) =>
      var shown := Or(Or(message, error), Str(LoginFallback));
      if StringThrows(shown) then ApiUnreachable else ShownText(shown)
    case _ => ApiUnreachable
  }

  /** The login failure text picks the message, then the error, then the fixed text. */
  lemma LoginFailureFallback(data: Value)
    ensures Nullish(data) ==> LoginFailureText(data) == ApiUnreachable
    ensures !Nullish(data) ==>
      var message, error := Get(data, "message").value, Get(data, "error").value;
      var shown := if Truthy(message) then message else if Truthy(error) then error else Str(LoginFallback);
      LoginFailureText(data) == if StringThrows(shown) then ApiUnreachable else ToJsString(shown)
  {
    if !Nullish(data) {
      var message, error := Get(data, "message").value, Get(data, "error").value;
      OrChain(message, error, Str(LoginFallback));
    }
  }

  /** A rejected login whose body carries `{message: "bad credentials"}` shows
      exactly that message. */
  lemma LoginShowsServerMessage(fields: map<string, Value>)
    requires "message" in fields && fields["message"] == Str("bad credentials")
    ensures LoginFailureText(Obj(fields)) == "bad credentials"
  {
    LoginFailureFallback(Obj(fields));
  }

  /** A rejected login whose message is an object with its own `toString` key
      (such as `{"toString": 0}`) cannot be shown: the assignment throws and the
      catch text appears. */
  lemma LoginThrowingMessage(fields: map<string, Value>)
    requires "message" in fields && fields["message"].Obj? && "toString" in fields["message"].fields
    ensures LoginFailureText(Obj(fields)) == ApiUnreachable
  {
    LoginFailureFallback(Obj(fields));
  }

  /** The create-case status text after a reply whose status is not ok:
      `data.message || "Error creando caso"`. On a null body the property read
      throws, and showing a message whose conversion throws throws too; the
      handler's catch shows the same fixed text. */
  function CreateFailureText(data: Value): (r: string)
    ensures Nullish(data) ==> r == CreateFallback
    ensures !Nullish(data) ==>
      var message := Get(data, "message").value;
      r == if Truthy(message) && !StringThrows(message) then ToJsString(message) else CreateFallback
  {
    match Get(data, "message")
    case Some(message) =>
      var shown := Or(message, Str(CreateFallback));
      if StringThrows(shown) then CreateFallback else ShownText(shown)
    case None => CreateFallback
  }

  // ---------------------------------------------------------------------------
  // The form inputs.

  /** WhiteSpace and LineTerminator of ECMAScript, the characters `trim` removes:
      tab, vertical tab, form feed, space, no-break space, the byte order mark and
      the other space separators (Unicode category Zs), then line feed, carriage
      return and the line and paragraph separators. */
  const JsSpaces: set<char> := {
    '\U{0009}', '\U{000B}', '\U{000C}', '\U{0020}', '\U{00A0}', '\U{FEFF}', '\U{1680}',
    '\U{2000}', '\U{2001}', '\U{2002}', '\U{2003}', '\U{2004}', '\U{2005}', '\U{2006}',
    '\U{2007}', '\U{2008}', '\U{2009}', '\U{200A}', '\U{202F}', '\U{205F}', '\U{3000}',
    '\U{000A}', '\U{000D}', '\U{2028}', '\U{2029}'
  }

  predicate IsJsSpace(c: char) {
    c in JsSpaces
  }

  /** `s` with its leading white space removed. */
  function TrimStart(s: string): (r: string)
    ensures |r| <= |s| && r == s[|s| - |r|..]
    ensures forall i :: 0 <= i < |s| - |r| ==> IsJsSpace(s[i])
    ensures r != [] ==> !IsJsSpace(r[0])
    decreases |s|
  {
    if s != [] && IsJsSpace(s[0]) then TrimStart(s[1..]) else s
  }

  /** `s` with its trailing white space removed. */
  function TrimEnd(s: string): (r: string)
    ensures |r| <= |s| && r == s[..|r|]
    ensures forall i :: |r| <= i < |s| ==> IsJsSpace(s[i])
    ensures r != [] ==> !IsJsSpace(r[|r| - 1])
    decreases |s|
  {
    if s != [] && IsJsSpace(s[|s| - 1]) then TrimEnd(s[..|s| - 1]) else s
  }

  /** `s.trim()`: the longest infix that neither starts nor ends with white space,
      all of what is cut off on either side being white space. */
  function Trim(s: string): (r: string)
    ensures exists i, j :: (0 <= i <= j <= |s| && r == s[i..j] &&
      (forall k :: 0 <= k < i ==> IsJsSpace(s[k])) && (forall k :: j <= k < |s| ==> IsJsSpace(s[k])))
    ensures r != [] ==> !IsJsSpace(r[0]) && !IsJsSpace(r[|r| - 1])
  {
    var t := TrimStart(s);
    var r := TrimEnd(t);
    TrimParts(s, t, r);
    r
  }

  lemma TrimParts(s: string, t: string, r: string)
    requires |t| <= |s| && t == s[|s| - |t|..] && forall k :: 0 <= k < |s| - |t| ==> IsJsSpace(s[k])
    requires |r| <= |t| && r == t[..|r|] && forall k :: |r| <= k < |t| ==> IsJsSpace(t[k])
    requires t != [] ==> !IsJsSpace(t[0])
    requires r != [] ==> !IsJsSpace(r[|r| - 1])
    ensures var i := |s| - |t|; var j := i + |r|;
      0 <= i <= j <= |s| && r == s[i..j] &&
      (forall k :: 0 <= k < i ==> IsJsSpace(s[k])) && (forall k :: j <= k < |s| ==> IsJsSpace(s[k]))
    ensures r != [] ==> !IsJsSpace(r[0]) && !IsJsSpace(r[|r| - 1])
  {
    InfixOfSuffix(s, t, r);
  }

  /** A prefix `r` of a suffix `t` of `s` is an infix of `s`, and what follows it in
      `t` follows it in `s`. */
  lemma InfixOfSuffix(s: string, t: string, r: string)
    requires |t| <= |s| && t == s[|s| - |t|..] && |r| <= |t| && r == t[..|r|]
    ensures var i := |s| - |t|;
      r == s[i..i + |r|] && forall k :: i + |r| <= k < |s| ==> s[k] == t[k - i]
  {
  }

  /** Trimming twice changes nothing more. */
  lemma TrimIdempotent(s: string)
    ensures Trim(Trim(s)) == Trim(s)
  {
    var r := Trim(s);
    TrimNoop(r);
  }

  lemma TrimNoop(r: string)
    requires r != [] ==> !IsJsSpace(r[0]) && !IsJsSpace(r[|r| - 1])
    ensures Trim(r) == r
  {
    assert TrimStart(r) == r;
    assert TrimEnd(r) == r;
  }

  /** `Number(input) || 1`, over the parsed number: None stands for NaN; an empty
      or blank input parses as Some(0). Both NaN and 0 are falsy. */
  function DefaultUserId(parsed: Option<int>): (r: int)
    ensures r != 0
    ensures parsed.Some? && parsed.value != 0 ==> r == parsed.value
    ensures parsed.None? || parsed.value == 0 ==> r == 1
  {
    match parsed
    case Some(n) => if Truthy(Num(n)) then n else 1
    case None => 1
  }

  /** The body of the create-case request. */
  datatype CaseRequest = CaseRequest(title: string, description: string, assignedTo: int, userId: int)

  /** The create-case handler's request body: the trimmed title and description,
      and the defaulted user id, sent both as `assignedTo` and as `userId`. */
  function NewCaseRequest(titleInput: string, descriptionInput: string, parsedUserId: Option<int>)
    : (r: CaseRequest)
    ensures r.assignedTo == r.userId && r.userId != 0
    ensures r.userId == DefaultUserId(parsedUserId)
    ensures r.title == Trim(titleInput) && r.description == Trim(descriptionInput)
  {
    var userId := DefaultUserId(parsedUserId);
    CaseRequest(Trim(titleInput), Trim(descriptionInput), userId, userId)
  }
}

=== FILE: JsValue.dfy ===
/** JavaScript values as the browser client sees them after `res.json()`:
    the JSON kinds plus `undefined`, the value of a missing property.
    Numbers are integers here (see README, "Left out"). */
module JsValue {

  datatype Value =
    | Undefined
    | Null
    | Bool(b: bool)
    | Num(n: int)
    | Str(s: string)
    | Arr(elems: seq<Value>)
    | Obj(fields: map<string, Value>)

  /** ECMAScript ToBoolean: the falsy values are undefined, null, false, 0 and "". */
  predicate Truthy(v: Value)
    ensures Truthy(v) <==> v !in {Undefined, Null, Bool(false), Num(0), Str("")}
  {
    match v
    case Undefined => false
    case Null => false
    case Bool(b) => b
    case Num(n) => n != 0
    case Str(s) => s != ""
    case Arr(_) => true
    case Obj(_) => true
  }

  predicate Nullish(v: Value) {
    v.Undefined? || v.Null?
  }

  /** The JavaScript `a || b` operator: `a` when it is truthy, otherwise `b`. */
  function Or(a: Value, b: Value): (r: Value)
    ensures Truthy(r) <==> Truthy(a) || Truthy(b)
    ensures r == a || r == b
    ensures Truthy(a) ==> r == a
    ensures !Truthy(a) ==> r == b
  {
    if Truthy(a) then a else b
  }

  /** `a || b || c` picks the first truthy operand, and `c` when none is. */
  lemma OrChain(a: Value, b: Value, c: Value)
    ensures Truthy(a) ==> Or(Or(a, b), c) == a
    ensures !Truthy(a) && Truthy(b) ==> Or(Or(a, b), c) == b
    ensures !Truthy(a) && !Truthy(b) ==> Or(Or(a, b), c) == c
  {
  }

  /** Property access `v.key`, for the keys this client reads (none of which an
      object, a primitive or an array inherits). Reading a property of null or
      undefined throws a TypeError (None); such a key that an object lacks, or
      any such key of a primitive or an array, gives undefined. */
  function Get(v: Value, key: string): (r: Option<Value>)
    ensures r.None? <==> Nullish(v)
    ensures v.Obj? && key in v.fields ==> r == Some(v.fields[key])
    ensures !v.Obj? && !Nullish(v) ==> r == Some(Undefined)
    ensures v.Obj? && key !in v.fields ==> r == Some(Undefined)
  {
    match v
    case Undefined => None
    case Null => None
    case Obj(m) => Some(if key in m then m[key] else Undefined)
    case _ => Some(Undefined)
  }

  datatype Option<+T> = None | Some(value: T)

  // ---------------------------------------------------------------------------
  // Decimal rendering of integers (Number.prototype.toString for integers).

  predicate IsDigit(c: char) {
    '0' <= c <= '9'
  }

  function DigitChar(d: nat): (c: char)
    requires d < 10
    ensures IsDigit(c) && c as int - '0' as int == d
  {
    ('0' as int + d) as char
  }

  /** The shortest decimal numeral of `n`: digits only, no leading zero. */
  function NatToDecimal(n: nat): (s: string)
    ensures |s| > 0
    ensures forall i :: 0 <= i < |s| ==> IsDigit(s[i])
    ensures s[0] == '0' ==> n == 0 && s == "0"
    decreases n
  {
    if n < 10 then [DigitChar(n)] else NatToDecimal(n / 10) + [DigitChar(n % 10)]
  }

  /** Reads back a string of decimal digits, most significant first. */
  function DecimalToNat(s: string): (n: nat)
    requires forall i :: 0 <= i < |s| ==> IsDigit(s[i])
  {
    if |s| == 0 then 0
    else DecimalToNat(s[..|s| - 1]) * 10 + DigitValue(s[|s| - 1])
  }

  function DigitValue(c: char): (d: nat)
    requires IsDigit(c)
    ensures d < 10 && DigitChar(d) == c
  {
    c as int - '0' as int
  }

  lemma {:induction false} DecimalRoundTrip(n: nat)
    ensures DecimalToNat(NatToDecimal(n)) == n
    decreases n
  {
    if n >= 10 {
      var s := NatToDecimal(n);
      assert s[..|s| - 1] == NatToDecimal(n / 10);
      DecimalRoundTrip(n / 10);
    }
  }

  function IntToDecimal(n: int): (s: string)
    ensures |s| > 0
    ensures n < 0 <==> s[0] == '-'
    ensures forall i :: 0 < i < |s| ==> IsDigit(s[i])
    ensures n >= 0 ==> IsDigit(s[0])
  {
    if n < 0 then "-" + NatToDecimal(-n) else NatToDecimal(n)
  }

  /** Distinct integers print differently: the decimal text identifies the number. */
  lemma IntToDecimalInjective(m: int, n: int)
    requires IntToDecimal(m) == IntToDecimal(n)
    ensures m == n
  {
    if m < 0 {
      assert IntToDecimal(m)[1..] == NatToDecimal(-m);
      assert IntToDecimal(n)[1..] == NatToDecimal(-n);
      DecimalRoundTrip(-m);
      DecimalRoundTrip(-n);
    } else {
      DecimalRoundTrip(m);
      DecimalRoundTrip(n);
    }
  }

  // ---------------------------------------------------------------------------
  // String(v), also what a template literal `${v}` inserts.

  /** ECMAScript ToString for the kinds above, for a value that does not
      StringThrows (callers check that first and take their `catch` branch).
      Arrays are joined with "," and their null or undefined elements become
      empty (Array.prototype.join). */
  function ToJsString(v: Value): (s: string)
    ensures v.Str? ==> s == v.s
    ensures v.Num? ==> s == IntToDecimal(v.n)
    ensures v.Undefined? ==> s == "undefined"
    ensures v.Null? ==> s == "null"
    ensures v.Obj? ==> s == "[object Object]"
    ensures v.Bool? ==> s == if v.b then "true" else "false"
    ensures v.Arr? ==> s == JoinComma(seq(|v.elems|, i requires 0 <= i < |v.elems| =>
                                        if Nullish(v.elems[i]) then "" else ToJsString(v.elems[i])))
    ensures v.Arr? && v.elems == [] ==> s == ""
  {
    match v
    case Undefined => "undefined"
    case Null => "null"
    case Bool(b) => if b then "true" else "false"
    case Num(n) => IntToDecimal(n)
    case Str(s) => s
    case Arr(xs) =>
      JoinComma(seq(|xs|, i requires 0 <= i < |xs| => if Nullish(xs[i]) then "" else ToJsString(xs[i])))
    case Obj(_) => "[object Object]"
  }

  /** `String(v)` throws a TypeError. A parsed object with its own `toString` key
      has no callable `toString` (JSON holds no functions), and its inherited
      `valueOf` returns the object itself, so no primitive results. An array
      throws when one of its elements does, since `join` converts each element.
      Every other value of this model converts. */
  predicate StringThrows(v: Value)
    ensures StringThrows(v) ==> v.Obj? || v.Arr?
    ensures v.Obj? ==> (StringThrows(v) <==> "toString" in v.fields)
    ensures v.Arr? ==> (StringThrows(v) <==> exists i :: 0 <= i < |v.elems| && StringThrows(v.elems[i]))
  {
    match v
    case Obj(m) => "toString" in m
    case Arr(xs) => exists i :: 0 <= i < |xs| && StringThrows(xs[i])
    case _ => false
  }

  /** `parts.join(",")`: the parts in order, with one comma between neighbours. */
  function JoinComma(parts: seq<string>): (r: string)
    ensures |parts| == 0 ==> r == ""
    ensures |parts| == 1 ==> r == parts[0]
    ensures |parts| >= 1 ==> |r| == TotalLength(parts) + |parts| - 1
    ensures |parts| >= 1 ==> r[..|parts[0]|] == parts[0]
    ensures |parts| >= 2 ==> r[|parts[0]|] == ',' && r[|parts[0]| + 1..] == JoinComma(parts[1..])
  {
    if |parts| == 0 then ""
    else if |parts| == 1 then parts[0]
    else parts[0] + "," + JoinComma(parts[1..])
  }

  /** `String([x])` is the text of `x`, empty for null or undefined; `String([x, y])`
      puts one comma between the two texts. */
  lemma ArrayText(x: Value, y: Value)
    ensures ToJsString(Arr([x])) == if Nullish(x) then "" else ToJsString(x)
    ensures ToJsString(Arr([x, y])) ==
      (if Nullish(x) then "" else ToJsString(x)) + "," + (if Nullish(y) then "" else ToJsString(y))
  {
    var parts := seq(2, i requires 0 <= i < 2 => if Nullish([x, y][i]) then "" else ToJsString([x, y][i]));
    assert parts[1..] == [parts[1]];
  }

  /** The summed lengths of the parts. */
  function TotalLength(parts: seq<string>): nat
  {
    if parts == [] then 0 else |parts[0]| + TotalLength(parts[1..])
  }

  /** A number never prints with a markup character in it. */
  lemma NumberTextHasNoMarkup(n: int)
    ensures '<' !in ToJsString(Num(n)) && '>' !in ToJsString(Num(n)) && '&' !in ToJsString(Num(n))
  {
  }
}
